=== FILE: README.md ===
# facebook_page_scraper — a Dafny model of its deterministic rules

The scraper drives a browser over a social network's pages. Almost all of it
is Selenium calls. A few rules in it are plain computation over strings and
sequences. This project states those rules as pure Dafny functions and proves
what they guarantee:

- **Permalink selection** (`Finder.__get_status_link`). Among a post's links,
  pick the first whose href looks like a post, photo, video or group link.
- **Post-id extraction** (`Finder.__get_post_id`). An `/events/<digits>/`
  pattern wins. Otherwise, for a `/photo` URL, the id is segment 1 of the
  `set` query parameter split on `.`, or else the `fbid` parameter.
- **Carousel collection** (`Finder.__find_all_image_url`, new layout). The
  image budget is the thumbnail count plus the "+N" overlay number. The
  photo viewer is walked until a source repeats, the budget is reached, the
  next button disappears, or a browser call raises.
- **Selector fallback** (`Utilities.__find_with_multiple_selectors`). Try
  CSS selectors in order and return the element of the first that finds one.

The browser is replaced by parameters. A link's href is an accessor
`L -> string`. A CSS lookup is a function `string -> Lookup<E>` (found / no
such element / other exception). The photo viewer is a function
`nat -> Frame`, giving what the loop sees on each turn. The "+N" overlay text
is an `Option<string>`. Exceptions the functions let escape become `Failure`
values, and Python's `None` becomes `None`.

Modules: `Wrappers` (Option, Result), `Text` (Python's `in`, `find`, `split`,
`strip`), `PyInt` (Python's `int()` in base 10), `UrlQuery` (the query of
`urlparse` and `parse_qs`), `StatusLink`, `PostId`, `Carousel`,
`SelectorSearch`.

## Model

| member | source | states |
|---|---|---|
| StatusLink.GetStatusLink | facebook_page_scraper/element_finder.py:35-63 | The result is the first link in list order whose href passes the tests, and every earlier link fails them. The result is absent (the scraper's `""`) exactly when no href passes. A present result is an element of the input list. |
| StatusLink.SixMarkersSuffice | facebook_page_scraper/element_finder.py:39-62 | An href passes the chain of tests iff it contains one of `/posts/`, `/photos/`, `fbid=`, `/group/`, `/videos/`, `/groups/`. The posts-and-groups test and the `/videos/pcb` test never decide anything on their own. |
| StatusLink.GetStatusLinkAppend | facebook_page_scraper/element_finder.py:37-63 | First match over `a + b` is the first match in `a` if there is one, else the first match in `b`. Links after the chosen one are never consulted. |
| Text.ContainsIffOccurs | facebook_page_scraper/element_finder.py:39 | Python's `sub in s` (a left-to-right scan) holds iff `sub` occurs at some index of `s`. |
| Text.SplitParts | facebook_page_scraper/element_finder.py:513 | The parts of `s.split(c)` joined with `c` give `s` back, and no part contains `c`. There are two or more parts exactly when `c` occurs in `s`. |
| Text.SplitJoin | facebook_page_scraper/element_finder.py:513 | Splitting a join of separator-free parts returns those parts. So the contract of `Split` fixes its result uniquely. |
| Text.SplitSecond | facebook_page_scraper/element_finder.py:513 | For `a.field` or `a.field.more` with no `.` in `a` or `field`, part 1 of the split is `field`. |
| Text.SplitAppend | facebook_page_scraper/element_finder.py:509 | Splitting `a`, the separator and `b` gives the parts of `a` followed by the parts of `b`. This is how the fields of a query split on `&`. |
| Text.Strip | facebook_page_scraper/element_finder.py:560 | `s.strip(chars)` is a slice of `s` with only members of `chars` around it, and its ends are not in `chars`. |
| Text.StripKeeps | facebook_page_scraper/element_finder.py:560 | A character of `s` outside `chars` is still there after `s.strip(chars)`. |
| PyInt.ParseShow | facebook_page_scraper/element_finder.py:560 | `int()` reads back the decimal rendering of every natural number of at most 4300 digits, and raises `ValueError` on a longer one. |
| PyInt.ParseDigits | facebook_page_scraper/element_finder.py:560 | `int()` reads a run of at most 4300 ASCII digits, leading zeros included, as the number it spells, and raises `ValueError` on a longer run. |
| PyInt.ParseNegativeDigits | facebook_page_scraper/element_finder.py:560 | `int()` reads `-` followed by a run of at most 4300 ASCII digits as the negation of that number, and raises `ValueError` on a longer run (the sign does not count). |
| PyInt.ParseRejects | facebook_page_scraper/element_finder.py:560-563 | `int()` raises `ValueError` on a text holding, anywhere, an ASCII character that is not a digit, a sign, `_` or whitespace. Only tab to carriage return and the space count as ASCII whitespace. |
| UrlQuery.QueryOfBuilt | facebook_page_scraper/element_finder.py:507 | The query of `base?query#fragment` is `query` when `base` has no `?` or `#` and `query` has no `#`. This needs `base` to be ASCII without `[` or `]`, so that `urlsplit` does not raise, and `query` to have no tab, CR or LF, which `urlsplit` would delete. |
| UrlQuery.ParseQsl | facebook_page_scraper/element_finder.py:509 | Every pair `parse_qs` keeps has a non-empty value. Its name has no `=` or `&`, and its value has no `&`. |
| UrlQuery.ParseQslAppend | facebook_page_scraper/element_finder.py:509 | The pairs of `q1&q2` are the pairs of `q1` followed by the pairs of `q2`: each field is read on its own, in order. |
| UrlQuery.ParseQslDropped | facebook_page_scraper/element_finder.py:509 | A field with no `=` (such as `theater`), or whose first `=` is its last character (a blank value such as `set=`), gives no pair. |
| UrlQuery.ParseQslPair | facebook_page_scraper/element_finder.py:509 | A well-formed field `name=value` with no `%` or `+` (nothing to decode) gives exactly the pair (`name`, `value`). |
| UrlQuery.QueryValueSkipsDropped | facebook_page_scraper/element_finder.py:507-511 | Appending a field that is dropped (`&theater`, `&set=`) to the query of a URL changes no parameter's value. The URL's base is ASCII without brackets, and there is no tab, CR or LF in the query. |
| UrlQuery.ParseEncode | facebook_page_scraper/element_finder.py:509 | `parse_qs` reads back any list of such pairs written as `n1=v1&n2=v2&...`, in order, when the text holds no `%` or `+` for it to decode. |
| UrlQuery.FirstValue | facebook_page_scraper/element_finder.py:511 | `.get(name, [None])[0]` is `None` iff no pair has that name. Otherwise it is the value of the first such pair. |
| UrlQuery.QueryValue | facebook_page_scraper/element_finder.py:509-512 | A parameter value read from a URL's query is never the empty string, because blank values are dropped. |
| PostId.MatchesAtIffPattern | facebook_page_scraper/element_finder.py:504 | The greedy matcher succeeds at `i` iff `/events/(\d+)/` matches there. The captured group at a given position is unique. |
| PostId.SearchFrom | facebook_page_scraper/element_finder.py:504 | The result is the leftmost position at or after `i` where the pattern matches, or `None` when there is none. |
| PostId.EventsId | facebook_page_scraper/element_finder.py:504-505 | The group of the leftmost `/events/<digits>/` match is returned. It is non-empty and all digits. The result is `None` iff no position matches. |
| PostId.GetPostId | facebook_page_scraper/element_finder.py:502-519 | A URL containing `/events` always succeeds, with the leftmost events match or `None`, so the `/photo` branch is never used. A URL with neither `/events` nor `/photo` gives `None`. The only failure is a `/photo` URL whose `set` value has no `.`. |
| PostId.QueryValueBuilt | facebook_page_scraper/element_finder.py:507-511 | The value of a parameter in the URL `base?n1=v1&...#fragment` is the value of the first pair with that name. This holds when the query has no `%`, `+`, tab, CR or LF, and `base` is ASCII without brackets. |
| PostId.PhotoSetGivesSecondSegment | facebook_page_scraper/element_finder.py:506-513 | For any `/photo` URL without `/events` whose first `set` value is `a.id` or `a.id.more`, the result is `id`, whatever `fbid` says. |
| PostId.PhotoSetWithoutDotFails | facebook_page_scraper/element_finder.py:511-513 | For any `/photo` URL without `/events` whose first `set` value has no `.`, the function raises `IndexError`. |
| PostId.PhotoWithoutSetGivesFbid | facebook_page_scraper/element_finder.py:511-517 | For any `/photo` URL without `/events` whose query keeps no `set` pair (none at all, or only blank `set=` fields), the result is the first `fbid` value, or `None` if there is none. |
| Carousel.ImageBudget | facebook_page_scraper/element_finder.py:555-563 | With no thumbnails (`images[-1]` raises) or no overlay, the budget is the thumbnail count. |
| Carousel.BudgetCountsOverlay | facebook_page_scraper/element_finder.py:558-560 | An overlay reading `+N` over at least one thumbnail makes the budget the thumbnail count plus N. If N has more than 4300 digits, `int()` raises and the budget is the thumbnail count. |
| Carousel.BudgetAcceptsSign | facebook_page_scraper/element_finder.py:558-560 | An overlay reading `+-N` (it contains `+`, so the XPath finds it) is stripped to `-N`, and the budget is the thumbnail count minus N, because `int()` accepts a sign. If N has more than 4300 digits, the budget is the thumbnail count. |
| Carousel.BudgetIgnoresUnreadable | facebook_page_scraper/element_finder.py:560-563 | An overlay holding an ASCII character `int()` cannot read, such as the `K` of `+1K`, leaves the budget at the thumbnail count: the `except` branch. |
| Carousel.Walk | facebook_page_scraper/element_finder.py:604-637 | The collected sources are those of the first frames, in order. They are loaded and contain no duplicates. Every frame except the last had a next button. There are never more sources than the budget (none when the budget is not positive). A normal stop is caused by a missing next button, the budget being reached, or a repeated source. An aborted stop is caused by a raising navigation step, or by a missing or unloaded new image below budget. |
| Carousel.CollectImages | facebook_page_scraper/element_finder.py:555-650 | On a normal stop the returned images are the collected sources. If the loop raises, the thumbnails come first, followed by the collected sources. Both obey the rules above, using the overlay-based budget. |
| Carousel.WrappingViewer | facebook_page_scraper/element_finder.py:620-622 | Take a viewer showing `k` distinct loading images with next buttons that wraps back to the first. It yields exactly those images once each, cut to the budget, and the loop stops normally. |
| SelectorSearch.TryFrom | facebook_page_scraper/driver_utilities.py:223-233 | Selectors from `i` on are tried in order. Success returns the element of the first one found, after exactly the lookups up to it. Failure means none was found and every selector was looked up. |
| SelectorSearch.FindWithMultipleSelectors | facebook_page_scraper/driver_utilities.py:222-234 | The element of the first selector whose lookup succeeds is returned, and no later selector is looked up. If none succeeds, including for the empty list, the result is `NoSuchElementException` naming the selectors. |
| SelectorSearch.OnlyPerformedLookupsMatter | facebook_page_scraper/driver_utilities.py:225 | The search depends only on the lookups it performed. A DOM that answers those the same way gives the same search, so later selectors are never used. |
| SelectorSearch.FailureKindIrrelevant | facebook_page_scraper/driver_utilities.py:229-233 | `NoSuchElementException` and any other exception from a lookup act the same way: the next selector is tried. |

## Left out

- Everything that only drives the browser is left out: `find_element(s)`, `ActionChains`, `execute_script`, `WebDriverWait`, scrolling, hovering, sleeps, window resizing, popup, cookie and login handling, and closing the driver. These calls have no behaviour to state apart from the DOM, which the model takes as parameters.
- The per-field extractors (`__find_share`, `__find_comments`, `__find_content`, `__find_reactions`, `__find_name`, `__find_all_posts`, `__detect_ui`, `__find_status`) are left out. Each is one fixed selector with an exception fallback.
- `__fetch_post_passage` is left out: it is a network fetch plus a regex over live HTML.
- `__find_posted_time` is left out. It uses floating-point timestamps, the local time zone, date parsing and injected JavaScript.
- `__is_stale` is left out: it only probes a driver exception.
- `scraping_utilities.py` is not part of this model.
- Logging is left out.
- StatusLink.GetStatusLink: assumes every link has an href string. A link without an href attribute gives `None` in Selenium, and the `in` test then raises `TypeError`. The model does not cover that case.
- PostId.GetPostId: on `/events` URLs only ASCII `0`–`9` count as `\d`, so for `/events/١٢/` the model gives `None` where Python returns `"١٢"`. On `/photo` URLs it requires `UrlQuery.SimpleUrl`: no tab, CR or LF anywhere, no `[`, `]` or non-ASCII character before the first `?` or `#`, and no `%` or `+` in the query. The reason is that `parse_qs` percent-decodes and turns `+` into a space, `urlparse` deletes tab, CR and LF, and it can raise `ValueError` on bracketed or unusual non-ASCII hosts. None of that is modelled. Brackets and non-ASCII characters in the query or fragment (`__cft__[0]=...`) are allowed, as in Python.
- PostId.EventsId: treats only ASCII `0`–`9` as digits. Python's `\d` also matches other Unicode decimal digits.
- PostId.MatchesAtIffPattern: `PatternAt` reads `\d` as ASCII `0`–`9`; a run of other Unicode decimal digits, which Python's `\d` matches, is not a match here.
- PostId.SearchFrom: finds the leftmost match of the pattern with the ASCII-only `\d`, so a match made of other Unicode decimal digits is skipped.
- UrlQuery.ParseQsl: does no percent-decoding and does not turn `+` into a space. On a query holding `%` or `+` Python's pairs differ: `a%3Db=c` gives the name `a=b`. Every use inside `PostId.GetPostId` is under `UrlQuery.SimpleUrl`, which excludes both characters from the query.
- UrlQuery.QueryOfBuilt: asks for the whole `base` to be ASCII and bracket-free, although `urlsplit` checks only the host part of it.
- PyInt.ParseShow: `Parse` accepts only ASCII digits. Python's `int()` also accepts other Unicode decimal digits.
- The digit limit of `int()` is fixed at its default of 4300 (`PyInt.MaxStrDigits`), as in Python 3.11 and later, 3.10.7 and 3.9.14. `sys.set_int_max_str_digits` and `PYTHONINTMAXSTRDIGITS` can change it, and older versions have no limit; neither is modelled.
- Query parsing splits only on `&`, as `parse_qs` has done since Python 3.9.2. Older versions also split on `;`.
- Carousel.CollectImages: covers only the new layout, once the carousel has opened. Reaching the carousel also needs element_finder.py:565, which calls `find_element_by_xpath`; Selenium 4.3 removed that method, so with it every new-layout call lands in the outer `except` at :656 and returns no images. (Observed in the code, not executed.) Left out are the old layout, the early return for a first thumbnail that is not a `/photo` link, the return when the carousel cannot be opened, the outer `except`, and the `post_id` taken from `driver.current_url`. That `post_id` is `PostId.GetPostId` applied to the browser's URL.
- Carousel.CollectImages: on the abort path the scraper re-reads `src` from the element objects it kept. The model returns the sources as they were recorded.

=== FILE: carousel.dfy ===
/** The image budget and the photo-viewer walk of
    `Finder.__find_all_image_url` (new layout). The browser is abstracted
    away: the overlay text over the last thumbnail is an input, and the
    viewer is the sequence of frames it shows, one per "next" click. */
module Carousel {
  import opened Wrappers
  import opened Text
  import PyInt

  /** `max_images_count`: the thumbnail count plus the number in the "+N"
      overlay of the last thumbnail. The lookup raising (no thumbnails, so
      `images[-1]` fails, or no overlay, `overlay == None`) or `int()`
      rejecting the text leaves the thumbnail count. */
  function ImageBudget(thumbnails: nat, overlay: Option<string>): (budget: int)
    ensures thumbnails == 0 || overlay.None? ==> budget == thumbnails
  {
    if thumbnails == 0 then thumbnails
    else match overlay
      case None => thumbnails
      case Some(text) =>
        match PyInt.Parse(Strip(text, {'+'}))
        case None => thumbnails
        case Some(extra) => thumbnails + extra
  }

  /** An overlay reading "+" and a run of digits raises the budget by the
      number the digits spell, unless `int()` refuses the run as too
      long. */
  lemma BudgetCountsOverlay(thumbnails: nat, digits: string)
    requires thumbnails > 0
    requires |digits| > 0 && forall k :: 0 <= k < |digits| ==> IsDigit(digits[k])
    ensures ImageBudget(thumbnails, Some("+" + digits))
         == if |digits| <= PyInt.MaxStrDigits then thumbnails + PyInt.DigitsValue(digits) else thumbnails
  {
    assert "+" + digits == ['+'] + digits;
    StripOneLeading('+', digits, {'+'});
    PyInt.ParseDigits(digits);
    BudgetOfStripped(thumbnails, "+" + digits, digits);
  }

  /** The budget of an overlay over some thumbnails, given what
      `strip("+")` leaves of it. */
  lemma BudgetOfStripped(thumbnails: nat, text: string, stripped: string)
    requires thumbnails > 0 && Strip(text, {'+'}) == stripped
    ensures ImageBudget(thumbnails, Some(text))
         == match PyInt.Parse(stripped) case None => thumbnails case Some(extra) => thumbnails + extra
  {
  }

  /** `int()` accepts a sign, so an overlay reading "+-" and digits, which
      `strip("+")` turns into a negative number, lowers the budget below
      the thumbnail count (again unless the run is too long for `int()`). */
  lemma BudgetAcceptsSign(thumbnails: nat, digits: string)
    requires thumbnails > 0
    requires |digits| > 0 && forall k :: 0 <= k < |digits| ==> IsDigit(digits[k])
    ensures ImageBudget(thumbnails, Some("+-" + digits))
         == if |digits| <= PyInt.MaxStrDigits then thumbnails - PyInt.DigitsValue(digits) else thumbnails
  {
    var negative := "-" + digits;
    assert "+-" + digits == ['+'] + negative;
    StripOneLeading('+', negative, {'+'});
    PyInt.ParseNegativeDigits(digits);
    BudgetOfStripped(thumbnails, "+-" + digits, negative);
  }

  /** An overlay holding an ASCII character that `int()` cannot read, such
      as the "K" of "+1K", leaves the budget at the thumbnail count: the
      `except` branch. */
  lemma BudgetIgnoresUnreadable(thumbnails: nat, text: string, k: nat)
    requires k < |text| && text[k] <= '\U{7F}'
    requires !IsDigit(text[k]) && text[k] != '_' && text[k] != '+' && text[k] != '-'
    requires !PyInt.IsSpace(text[k])
    ensures ImageBudget(thumbnails, Some(text)) == thumbnails
  {
    var t := Strip(text, {'+'});
    StripKeeps(text, {'+'}, k);
    var j :| 0 <= j < |t| && t[j] == text[k];
    PyInt.ParseRejects(t, j);
  }

  /** What happens after an image has been appended: the nav container has
      a second button that is clicked (`NextButton`), has at most one
      (`NoNextButton`), or a call raises (`NavFault`). */
  datatype Nav = NextButton | NoNextButton | NavFault

  /** One turn of the viewer loop. `Missing`: the image lookup failed on
      both tries. `Shown`: the image's `src`, whether the wait for it to
      load succeeded, and what the navigation step did. */
  datatype Frame = Missing | Shown(src: string, loaded: bool, nav: Nav)

  /** The sources collected, and whether the loop ended by an exception
      (the early `return` inside the loop) rather than normally. */
  datatype Run = Run(srcs: seq<string>, aborted: bool)

  predicate Distinct(s: seq<string>)
  {
    forall i, j :: 0 <= i < j < |s| ==> s[i] != s[j]
  }

  /** Frame `j` was collected as `src` and the loop went on past it. */
  ghost predicate Advanced(viewer: nat -> Frame, j: nat, src: string)
  {
    viewer(j) == Shown(src, true, NextButton)
  }

  /** Frame `n - 1`, the last one collected, ended with navigation `nav`. */
  ghost predicate LastNav(viewer: nat -> Frame, n: nat, nav: Nav)
  {
    n > 0 && viewer(n - 1).Shown? && viewer(n - 1).nav == nav
  }

  /** The loop reached frame `n` (`n` images collected, still a next button). */
  ghost predicate Reached(viewer: nat -> Frame, n: nat)
  {
    n == 0 || LastNav(viewer, n, NextButton)
  }

  /** Why the loop ended normally after collecting `srcs`: the last frame
      had no next button, or the budget is used up, or the next frame
      repeats a collected source. */
  ghost predicate StoppedNormally(viewer: nat -> Frame, budget: int, srcs: seq<string>)
  {
    var n := |srcs|;
    || LastNav(viewer, n, NoNextButton)
    || (Reached(viewer, n) && (n >= budget || (viewer(n).Shown? && viewer(n).src in srcs)))
  }

  /** Why the loop ended by an exception after collecting `srcs`: the last
      navigation step raised, or, below budget, the next frame could not be
      found or its new image never loaded. */
  ghost predicate StoppedByError(viewer: nat -> Frame, budget: int, srcs: seq<string>)
  {
    var n := |srcs|;
    || LastNav(viewer, n, NavFault)
    || (&& Reached(viewer, n) && n < budget
        && (viewer(n).Missing? || (viewer(n).src !in srcs && !viewer(n).loaded)))
  }

  /** Everything a run of the loop promises: the sources are those of the
      first frames in order, all loaded and distinct, every frame but the
      last led on to the next, the budget is respected, and the loop
      stopped for one of the reasons `__find_all_image_url` has. */
  ghost predicate ValidRun(viewer: nat -> Frame, budget: int, run: Run)
  {
    var n := |run.srcs|;
    && Distinct(run.srcs)
    && (n <= budget || n == 0)
    && (forall j :: 0 <= j < n ==>
          viewer(j).Shown? && viewer(j).src == run.srcs[j] && viewer(j).loaded)
    && (forall j :: 0 <= j < n - 1 ==> viewer(j).nav == NextButton)
    && (run.aborted ==> StoppedByError(viewer, budget, run.srcs))
    && (!run.aborted ==> StoppedNormally(viewer, budget, run.srcs))
  }

  /** The `while` loop, entered with `shown` already collected and a next
      button present. */
  function Walk(viewer: nat -> Frame, budget: int, shown: seq<string>): (run: Run)
    requires Distinct(shown)
    requires |shown| <= budget || shown == []
    requires forall j :: 0 <= j < |shown| ==> Advanced(viewer, j, shown[j])
    ensures shown <= run.srcs
    ensures ValidRun(viewer, budget, run)
    decreases budget - |shown|
  {
    var n := |shown|;
    assert Reached(viewer, n) by {
      if n > 0 {
        assert Advanced(viewer, n - 1, shown[n - 1]);
      }
    }
    assert forall j :: 0 <= j < n ==> viewer(j) == Shown(shown[j], true, NextButton) by {
      forall j | 0 <= j < n ensures viewer(j) == Shown(shown[j], true, NextButton) {
        assert Advanced(viewer, j, shown[j]);
      }
    }
    if n >= budget then Run(shown, false)
    else match viewer(n)
      case Missing => Run(shown, true)
      case Shown(src, loaded, nav) =>
        if src in shown then Run(shown, false)
        else if !loaded then Run(shown, true)
        else
          var next := shown + [src];
          assert forall j :: 0 <= j < n ==> next[j] == shown[j];
          assert next[n] == src;
          assert Distinct(next);
          match nav
          case NavFault => Run(next, true)
          case NoNextButton => Run(next, false)
          case NextButton =>
            assert forall j :: 0 <= j < |next| ==> Advanced(viewer, j, next[j]);
            Walk(viewer, budget, next)
  }

  /** What the function returns as `images` once the carousel is open,
      and whether the loop finished normally. */
  datatype Collection = Collection(images: seq<string>, complete: bool)

  /** Budget, then the loop. A normal end returns the collected sources;
      an exception inside the loop returns the thumbnails' sources followed
      by the collected ones. */
  function CollectImages(thumbs: seq<string>, overlay: Option<string>, viewer: nat -> Frame): (c: Collection)
    ensures c.complete ==> ValidRun(viewer, ImageBudget(|thumbs|, overlay), Run(c.images, false))
    ensures !c.complete ==> && thumbs <= c.images
                            && ValidRun(viewer, ImageBudget(|thumbs|, overlay), Run(c.images[|thumbs|..], true))
  {
    var run := Walk(viewer, ImageBudget(|thumbs|, overlay), []);
    if run.aborted then
      assert (thumbs + run.srcs)[|thumbs|..] == run.srcs;
      Collection(thumbs + run.srcs, false)
    else Collection(run.srcs, true)
  }

  /** A viewer that shows `k` distinct images that load, each with a next
      button, and then wraps around to the first again (the usual photo
      viewer) yields those images once each, cut to the budget. */
  lemma {:induction false} WrappingViewer(viewer: nat -> Frame, cycle: seq<string>, budget: int)
    requires |cycle| > 0 && Distinct(cycle)
    requires forall j :: 0 <= j < |cycle| ==> viewer(j) == Shown(cycle[j], true, NextButton)
    requires viewer(|cycle|) == Shown(cycle[0], true, NextButton)
    ensures Walk(viewer, budget, []) ==
              Run(cycle[..if budget <= 0 then 0 else if budget < |cycle| then budget else |cycle|], false)
  {
    var run := Walk(viewer, budget, []);
    var k := |cycle|;
    var n := |run.srcs|;
    var m := if budget <= 0 then 0 else if budget < k then budget else k;
    assert n <= k;
    assert forall j :: 0 <= j < n ==> run.srcs[j] == cycle[j];
    assert run.srcs == cycle[..n];
    assert !run.aborted;
    assert n == m;
  }
}

=== FILE: post_id.dfy ===
/** `Finder.__get_post_id`: the id of a post taken from the URL of its
    media, by an `/events/<digits>/` pattern or by the `set` / `fbid`
    query parameters of a `/photo` URL. */
module PostId {
  import opened Wrappers
  import opened Text
  import opened UrlQuery

  const EventsPrefix := "/events/"

  /** The end of the run of ASCII digits starting at `j`. */
  function DigitRunEnd(s: string, j: nat): (e: nat)
    requires j <= |s|
    ensures j <= e <= |s|
    ensures forall k :: j <= k < e ==> IsDigit(s[k])
    ensures e == |s| || !IsDigit(s[e])
    decreases |s| - j
  {
    if j < |s| && IsDigit(s[j]) then DigitRunEnd(s, j + 1) else j
  }

  /** The regular expression `/events/(\d+)/` matches `s` at `i` with
      `id` as its group. */
  ghost predicate PatternAt(s: string, i: int, id: string)
  {
    && |id| > 0
    && (forall k :: 0 <= k < |id| ==> IsDigit(id[k]))
    && 0 <= i && i + |EventsPrefix| + |id| + 1 <= |s|
    && s[i..i + |EventsPrefix| + |id| + 1] == EventsPrefix + id + "/"
  }

  /** How the regex engine matches at `i`: the greedy `\d+` takes the whole
      digit run, and the match succeeds when the run is not empty and a `/`
      follows it (a shorter run would leave a digit where `/` is needed). */
  predicate MatchesAt(s: string, i: nat)
  {
    && i + |EventsPrefix| <= |s|
    && s[i..i + |EventsPrefix|] == EventsPrefix
    && var e := DigitRunEnd(s, i + |EventsPrefix|);
       e > i + |EventsPrefix| && e < |s| && s[e] == '/'
  }

  /** The group captured by the match at `i`. */
  function GroupAt(s: string, i: nat): string
    requires MatchesAt(s, i)
  {
    s[i + |EventsPrefix|..DigitRunEnd(s, i + |EventsPrefix|)]
  }

  /** The greedy matcher agrees with the pattern, and the group of a match
      at a given position is unique. */
  lemma MatchesAtIffPattern(s: string, i: nat)
    ensures MatchesAt(s, i) ==> PatternAt(s, i, GroupAt(s, i))
    ensures forall id :: PatternAt(s, i, id) ==> MatchesAt(s, i) && id == GroupAt(s, i)
  {
    if MatchesAt(s, i) {
      MatchIsPattern(s, i);
    }
    forall id | PatternAt(s, i, id)
      ensures MatchesAt(s, i) && id == GroupAt(s, i)
    {
      PatternIsMatch(s, i, id);
    }
  }

  lemma MatchIsPattern(s: string, i: nat)
    requires MatchesAt(s, i)
    ensures PatternAt(s, i, GroupAt(s, i))
  {
    var p := |EventsPrefix|;
    var e := DigitRunEnd(s, i + p);
    var id := GroupAt(s, i);
    assert s[i..e + 1] == s[i..i + p] + id + [s[e]];
  }

  lemma PatternIsMatch(s: string, i: nat, id: string)
    requires PatternAt(s, i, id)
    ensures MatchesAt(s, i) && id == GroupAt(s, i)
  {
    var p := |EventsPrefix|;
    var m := i + p + |id|;
    var w := s[i..m + 1];
    assert w == EventsPrefix + id + "/";
    forall k | 0 <= k < p
      ensures s[i + k] == EventsPrefix[k]
    {
      assert s[i + k] == w[k];
    }
    assert s[i..i + p] == EventsPrefix;
    forall k | 0 <= k < |id|
      ensures s[i + p + k] == id[k]
    {
      assert s[i + p + k] == w[p + k];
    }
    forall k | i + p <= k < m
      ensures IsDigit(s[k])
    {
      assert s[k] == id[k - i - p];
    }
    assert s[m] == w[p + |id|] == '/';
    DigitRunStops(s, i + p, m);
    assert s[i + p..m] == id;
  }

  /** A digit run followed by a non-digit ends there. */
  lemma DigitRunStops(s: string, j: nat, m: nat)
    requires j <= m < |s| && !IsDigit(s[m])
    requires forall k :: j <= k < m ==> IsDigit(s[k])
    ensures DigitRunEnd(s, j) == m
    decreases m - j
  {
    if j < m {
      DigitRunStops(s, j + 1, m);
    }
  }

  /** The first position at or after `i` where the pattern matches. */
  function SearchFrom(s: string, i: nat): (r: Option<nat>)
    requires i <= |s|
    ensures r.Some? ==> i <= r.value && MatchesAt(s, r.value)
    ensures r.Some? ==> forall j :: i <= j < r.value ==> !MatchesAt(s, j)
    ensures r.None? ==> forall j :: i <= j ==> !MatchesAt(s, j)
    decreases |s| - i
  {
    if MatchesAt(s, i) then Some(i)
    else if i == |s| then None
    else SearchFrom(s, i + 1)
  }

  /** `re.search(r"/events/(\d+)/", s)` followed by `match.group(1)`:
      the group of the leftmost match, or `None` when nothing matches. */
  function EventsId(s: string): (r: Option<string>)
    ensures r.Some? ==> |r.value| > 0 && forall k :: 0 <= k < |r.value| ==> IsDigit(r.value[k])
    ensures r.Some? ==> exists i :: PatternAt(s, i, r.value)
                                  && forall j, id :: 0 <= j < i ==> !PatternAt(s, j, id)
    ensures r.None? <==> forall i, id :: !PatternAt(s, i, id)
  {
    match SearchFrom(s, 0)
    case None =>
      assert forall i: nat, id :: PatternAt(s, i, id) ==> MatchesAt(s, i) by {
        forall i: nat, id | PatternAt(s, i, id) ensures MatchesAt(s, i) {
          MatchesAtIffPattern(s, i);
        }
      }
      None
    case Some(i) =>
      MatchesAtIffPattern(s, i);
      assert forall j: nat, id :: j < i && PatternAt(s, j, id) ==> MatchesAt(s, j) by {
        forall j: nat, id | j < i && PatternAt(s, j, id) ensures MatchesAt(s, j) {
          MatchesAtIffPattern(s, j);
        }
      }
      Some(GroupAt(s, i))
  }

  /** `post_id.split('.')[1]` on a `set` value without a `.`. */
  datatype PostIdError = IndexError

  /** `Finder.__get_post_id(url)`. `Success(None)` is Python's `None`;
      `Failure` is the exception the function lets escape. */
  function GetPostId(url: string): (r: Result<Option<string>, PostIdError>)
    requires Contains(url, "/events") || !Contains(url, "/photo") || SimpleUrl(url)
    ensures Contains(url, "/events") ==> r.Success?
    ensures Contains(url, "/events") ==>
              (r.value.None? <==> forall i, id :: !PatternAt(url, i, id))
    ensures Contains(url, "/events") && r.value.Some? ==>
              exists i :: PatternAt(url, i, r.value.value)
                          && forall j, id :: 0 <= j < i ==> !PatternAt(url, j, id)
    ensures !Contains(url, "/events") && !Contains(url, "/photo") ==> r == Success(None)
    ensures r.Failure? ==> && !Contains(url, "/events")
                           && QueryValue(url, "set").Some?
                           && '.' !in QueryValue(url, "set").value
  {
    if Contains(url, "/events") then Success(EventsId(url))
    else if Contains(url, "/photo") then FromPhotoQuery(QueryValue(url, "set"), QueryValue(url, "fbid"))
    else Success(None)
  }

  /** The `/photo` branch, given the first `set` and `fbid` values: segment
      1 of a non-empty `set` split on `.`, else `fbid`. */
  function FromPhotoQuery(setValue: Option<string>, fbid: Option<string>): (r: Result<Option<string>, PostIdError>)
    ensures r.Failure? <==> setValue.Some? && setValue.value != "" && '.' !in setValue.value
  {
    if setValue.Some? && setValue.value != "" then
      var segments := Split(setValue.value, '.');
      SplitParts(setValue.value, '.');
      if |segments| < 2 then Failure(IndexError) else Success(Some(segments[1]))
    else Success(fbid)
  }

  /** The query value of a URL built as `base?query#fragment` is that of
      the pairs the query encodes. */
  lemma QueryValueBuilt(base: string, params: seq<Param>, fragment: string, name: string)
    requires '?' !in base && '#' !in base && '#' !in Encode(params)
    requires PlainHost(base) && NoControls(Encode(params)) && Unescaped(Encode(params))
    requires fragment == "" || fragment[0] == '#'
    requires forall k :: 0 <= k < |params| ==> WellFormed(params[k])
    ensures QueryValue(base + "?" + Encode(params) + fragment, name) == FirstValue(params, name)
  {
    QueryOfBuilt(base, Encode(params), fragment);
    ParseEncode(params);
  }

  /** A `/photo` URL whose first `set` value is `a.id` or `a.id.more`
      yields `id`, whatever the `fbid` parameter says. */
  lemma PhotoSetGivesSecondSegment(url: string, a: string, id: string, more: string)
    requires Contains(url, "/photo") && !Contains(url, "/events") && SimpleUrl(url)
    requires '.' !in a && '.' !in id && (more == "" || more[0] == '.')
    requires QueryValue(url, "set") == Some(a + "." + id + more)
    ensures GetPostId(url) == Success(Some(id))
  {
    SplitSecond(a, id, more, '.');
  }

  /** A `/photo` URL whose first `set` value has no `.` makes the
      extraction raise. */
  lemma PhotoSetWithoutDotFails(url: string, v: string)
    requires Contains(url, "/photo") && !Contains(url, "/events") && SimpleUrl(url)
    requires QueryValue(url, "set") == Some(v) && '.' !in v
    ensures GetPostId(url) == Failure(IndexError)
  {
  }

  /** A `/photo` URL whose query keeps no `set` pair (none at all, or only
      blank ones such as `set=`) yields its first `fbid` value, or `None`
      when there is none. */
  lemma PhotoWithoutSetGivesFbid(url: string)
    requires Contains(url, "/photo") && !Contains(url, "/events") && SimpleUrl(url)
    requires QueryValue(url, "set") == None
    ensures GetPostId(url) == Success(QueryValue(url, "fbid"))
  {
  }
}

=== FILE: pyint.dfy ===
/** Python's `int(text)` with the default base 10, the conversion the
    scraper applies to the "+N" overlay of a post's last thumbnail. */
module PyInt {
  import opened Wrappers
  import opened Text

  /** The whitespace `int()` skips around the number. Characters below
      U+007F are taken as they are, and of those only the tab to carriage
      return controls and the space count. Above, every character that
      `str.isspace()` accepts is first turned into a space: U+0085, U+00A0,
      U+1680, U+2000 to U+200A, U+2028, U+2029, U+202F, U+205F and U+3000.
      So U+001C to U+001F make `int()` fail although `isspace()` accepts
      them. */
  predicate IsSpace(ch: char)
  {
    || '\t' <= ch <= '\r' || ch == ' '
    || ch == '\U{85}' || ch == '\U{A0}' || ch == '\U{1680}'
    || '\U{2000}' <= ch <= '\U{200A}'
    || ch == '\U{2028}' || ch == '\U{2029}' || ch == '\U{202F}'
    || ch == '\U{205F}' || ch == '\U{3000}'
  }

  /** The whitespace `int()` ignores around the number. */
  const Whitespace: set<char> := set ch: char | '\t' <= ch <= '\U{3000}' && IsSpace(ch)

  /** The digits of a base-10 literal: ASCII digits, with single
      underscores allowed between two digits. */
  predicate DigitGroups(b: string)
  {
    && |b| > 0
    && IsDigit(b[0])
    && IsDigit(b[|b| - 1])
    && (forall k :: 0 <= k < |b| ==> IsDigit(b[k]) || b[k] == '_')
    && !Contains(b, "__")
  }

  /** The number the digits of `b` spell; other characters (the
      underscores of a literal) are skipped. */
  function DigitsValue(b: string): nat
  {
    if |b| == 0 then 0
    else if IsDigit(b[|b| - 1]) then DigitsValue(b[..|b| - 1]) * 10 + DigitValue(b[|b| - 1])
    else DigitsValue(b[..|b| - 1])
  }

  /** How many digits `b` holds; the underscores of a literal do not
      count. */
  function DigitCount(b: string): (n: nat)
    ensures n <= |b|
    ensures (forall k :: 0 <= k < |b| ==> IsDigit(b[k])) ==> n == |b|
  {
    if |b| == 0 then 0
    else if IsDigit(b[|b| - 1]) then DigitCount(b[..|b| - 1]) + 1
    else DigitCount(b[..|b| - 1])
  }

  /** `sys.get_int_max_str_digits()` at its default: `int()` refuses a
      decimal literal with more digits than this, leading zeros
      included. */
  const MaxStrDigits: nat := 4300

  function DigitValue(ch: char): nat
    requires IsDigit(ch)
  {
    ch as int - '0' as int
  }

  /** `int(text)`: `Some` of the value, or `None` where Python raises
      `ValueError`. Surrounding whitespace is ignored. The literal may hold
      at most `MaxStrDigits` digits. */
  function Parse(text: string): (r: Option<int>)
  {
    ParseLiteral(Strip(text, Whitespace))
  }

  /** The literal itself: an optional sign, then digit groups. */
  function ParseLiteral(t: string): (r: Option<int>)
  {
    var signed := |t| > 0 && (t[0] == '+' || t[0] == '-');
    var body := if signed then t[1..] else t;
    if !DigitGroups(body) || DigitCount(body) > MaxStrDigits then None
    else
      var n: int := DigitsValue(body);
      Some(if signed && t[0] == '-' then -n else n)
  }

  /** The decimal rendering of `n`, without sign or leading zeros. */
  function Show(n: nat): (s: string)
    ensures |s| > 0 && IsDigit(s[0])
    ensures forall k :: 0 <= k < |s| ==> IsDigit(s[k])
  {
    var d := ['0' + (n % 10) as char];
    if n < 10 then d else Show(n / 10) + d
  }

  /** `int()` reads back what `Show` writes, as long as it is no longer
      than the digit limit. */
  lemma {:induction false} ParseShow(n: nat)
    ensures Parse(Show(n)) == if |Show(n)| <= MaxStrDigits then Some(n) else None
  {
    ParseDigits(Show(n));
    ShowValue(n);
  }

  /** A plain run of ASCII digits is read as the number it spells, and
      refused when it is longer than the digit limit. */
  lemma ParseDigits(s: string)
    requires |s| > 0 && forall k :: 0 <= k < |s| ==> IsDigit(s[k])
    ensures Parse(s) == if |s| <= MaxStrDigits then Some(DigitsValue(s)) else None
  {
    ParseTrimmed(s);
    PlainDigits(s);
    UnsignedLiteral(s);
  }

  lemma UnsignedLiteral(b: string)
    requires DigitGroups(b)
    ensures ParseLiteral(b) == if DigitCount(b) <= MaxStrDigits then Some(DigitsValue(b)) else None
  {
  }

  /** The same run behind a minus sign is read as its negation: `int()`
      accepts a sign, which does not count towards the digit limit. */
  lemma ParseNegativeDigits(s: string)
    requires |s| > 0 && forall k :: 0 <= k < |s| ==> IsDigit(s[k])
    ensures Parse("-" + s) == if |s| <= MaxStrDigits then Some(0 - DigitsValue(s)) else None
  {
    ParseTrimmed("-" + s);
    PlainDigits(s);
    NegativeLiteral(s);
  }

  lemma NegativeLiteral(b: string)
    requires DigitGroups(b)
    ensures ParseLiteral("-" + b) == if DigitCount(b) <= MaxStrDigits then Some(0 - DigitsValue(b)) else None
  {
    assert ("-" + b)[1..] == b;
  }

  /** A text that starts with a digit or a sign and ends with a digit has
      no whitespace to strip. */
  lemma ParseTrimmed(t: string)
    requires |t| > 0 && (IsDigit(t[0]) || t[0] == '-' || t[0] == '+') && IsDigit(t[|t| - 1])
    ensures Parse(t) == ParseLiteral(t)
  {
    StripUnchanged(t, Whitespace);
  }

  lemma PlainDigits(b: string)
    requires |b| > 0 && forall k :: 0 <= k < |b| ==> IsDigit(b[k])
    ensures DigitGroups(b)
  {
    ContainsOnlyIfChar(b, "__", 0);
  }

  /** An ASCII character that is no digit, sign, underscore or whitespace
      anywhere in the text makes `int()` raise `ValueError`. */
  lemma ParseRejects(text: string, k: nat)
    requires k < |text| && text[k] <= '\U{7F}'
    requires !IsDigit(text[k]) && text[k] != '_' && text[k] != '+' && text[k] != '-'
    requires !IsSpace(text[k])
    ensures Parse(text) == None
  {
    var t := Strip(text, Whitespace);
    StripKeeps(text, Whitespace, k);
    var j :| 0 <= j < |t| && t[j] == text[k];
    LiteralRejects(t, j);
  }

  lemma LiteralRejects(t: string, j: nat)
    requires j < |t| && !IsDigit(t[j]) && t[j] != '_' && t[j] != '+' && t[j] != '-'
    ensures ParseLiteral(t) == None
  {
    if |t| > 0 && (t[0] == '+' || t[0] == '-') {
      assert t[1..][j - 1] == t[j];
    }
  }

  lemma {:induction false} ShowValue(n: nat)
    ensures DigitsValue(Show(n)) == n
    decreases n
  {
    var s := Show(n);
    if n >= 10 {
      ShowValue(n / 10);
      assert s[..|s| - 1] == Show(n / 10);
    }
  }
}

=== FILE: selector_search.dfy ===
/** `Utilities.__find_with_multiple_selectors`: try CSS selectors in turn
    and return the element of the first one that finds something. */
module SelectorSearch {
  import opened Wrappers

  /** What one `find_element(By.CSS_SELECTOR, selector)` call does: return
      an element, raise `NoSuchElementException`, or raise anything else
      (which `__find_with_multiple_selectors` logs). */
  datatype Lookup<E> = Found(element: E) | NoSuchElement | OtherError(message: string)

  /** The `NoSuchElementException` raised when no selector finds anything;
      its message lists the selectors. */
  datatype SearchError = NoElementFor(selectors: seq<string>)

  /** The outcome of the search and how many lookups it performed. */
  datatype Search<E> = Search(result: Result<E, SearchError>, lookups: nat)

  /** Try `selectors[i..]` in order. */
  function TryFrom<E>(selectors: seq<string>, lookup: string -> Lookup<E>, i: nat): (s: Search<E>)
    requires i <= |selectors|
    ensures i <= s.lookups <= |selectors|
    ensures s.result.Success? ==> && s.lookups > i
                                  && lookup(selectors[s.lookups - 1]) == Found(s.result.value)
    ensures s.result.Success? ==> forall j :: i <= j < s.lookups - 1 ==> !lookup(selectors[j]).Found?
    ensures s.result.Failure? <==> forall j :: i <= j < |selectors| ==> !lookup(selectors[j]).Found?
    ensures s.result.Failure? ==> s.lookups == |selectors| && s.result.error == NoElementFor(selectors)
    decreases |selectors| - i
  {
    if i == |selectors| then Search(Failure(NoElementFor(selectors)), i)
    else match lookup(selectors[i])
      case Found(e) => Search(Success(e), i + 1)
      case NoSuchElement => TryFrom(selectors, lookup, i + 1)
      case OtherError(_) => TryFrom(selectors, lookup, i + 1)
  }

  /** The whole search: the element of the first selector whose lookup
      succeeds, after exactly the lookups up to and including it; failure
      after looking up every selector (none at all for an empty list). */
  function FindWithMultipleSelectors<E>(selectors: seq<string>, lookup: string -> Lookup<E>): (s: Search<E>)
    ensures s.lookups <= |selectors|
    ensures s.result.Success? ==> && s.lookups > 0
                                  && lookup(selectors[s.lookups - 1]) == Found(s.result.value)
                                  && forall j :: 0 <= j < s.lookups - 1 ==> !lookup(selectors[j]).Found?
    ensures s.result.Failure? <==> forall j :: 0 <= j < |selectors| ==> !lookup(selectors[j]).Found?
    ensures s.result.Failure? ==> s.lookups == |selectors| && s.result.error == NoElementFor(selectors)
  {
    TryFrom(selectors, lookup, 0)
  }

  /** Selectors past the last lookup are never tried: any other DOM that
      answers the performed lookups the same way gives the same search. */
  lemma {:induction false} OnlyPerformedLookupsMatter<E>(selectors: seq<string>,
                                                         lookup: string -> Lookup<E>,
                                                         other: string -> Lookup<E>, i: nat)
    requires i <= |selectors|
    requires forall j :: i <= j < TryFrom(selectors, lookup, i).lookups ==>
               lookup(selectors[j]) == other(selectors[j])
    ensures TryFrom(selectors, other, i) == TryFrom(selectors, lookup, i)
    decreases |selectors| - i
  {
    if i < |selectors| && !lookup(selectors[i]).Found? {
      OnlyPerformedLookupsMatter(selectors, lookup, other, i + 1);
    }
  }

  /** Which exception a failing lookup raises makes no difference: only
      whether and what each lookup finds does. */
  lemma {:induction false} FailureKindIrrelevant<E>(selectors: seq<string>,
                                                    lookup: string -> Lookup<E>,
                                                    other: string -> Lookup<E>, i: nat)
    requires i <= |selectors|
    requires forall j :: i <= j < |selectors| ==>
               (lookup(selectors[j]).Found? <==> other(selectors[j]).Found?)
    requires forall j :: i <= j < |selectors| && lookup(selectors[j]).Found? ==>
               lookup(selectors[j]) == other(selectors[j])
    ensures TryFrom(selectors, other, i) == TryFrom(selectors, lookup, i)
    decreases |selectors| - i
  {
    if i < |selectors| && !lookup(selectors[i]).Found? {
      FailureKindIrrelevant(selectors, lookup, other, i + 1);
    }
  }
}

=== FILE: status_link.dfy ===
/** `Finder.__get_status_link`: pick a post's permalink among its links. */
module StatusLink {
  import opened Wrappers
  import opened Text

  /** The tests the loop body of `__get_status_link` applies to one href,
      in its order; each branch that holds stores the link and leaves the
      loop. */
  predicate LooksLikeStatus(href: string)
  {
    || (Contains(href, "/posts/") && Contains(href, "/groups/"))
    || Contains(href, "/posts/")
    || Contains(href, "/videos/pcb")
    || Contains(href, "/photos/")
    || Contains(href, "fbid=")
    || Contains(href, "/group/")
    || Contains(href, "/videos/")
    || Contains(href, "/groups/")
  }

  /** Two of the eight tests can never decide anything: a `/posts/` href
      that also names `/groups/` passes the plain `/posts/` test, and
      `/videos/pcb` passes the `/videos/` test. Six markers suffice. */
  lemma SixMarkersSuffice(href: string)
    ensures LooksLikeStatus(href) <==>
              || Contains(href, "/posts/")
              || Contains(href, "/photos/")
              || Contains(href, "fbid=")
              || Contains(href, "/group/")
              || Contains(href, "/videos/")
              || Contains(href, "/groups/")
  {
    if Contains(href, "/videos/pcb") {
      var pcb := "/videos/pcb";
      assert pcb[..|"/videos/"|] == "/videos/";
      assert Contains(pcb, "/videos/");
      ContainsTransitive(href, pcb, "/videos/");
    }
  }

  /** The first link, in list order, whose href passes the tests; `None`
      stands for the `""` the function returns when no link does. */
  function GetStatusLink<L>(links: seq<L>, href: L -> string): (r: Option<L>)
    ensures r.None? <==> forall i :: 0 <= i < |links| ==> !LooksLikeStatus(href(links[i]))
    ensures r.Some? ==> r.value in links
    ensures r.Some? ==> exists i :: && 0 <= i < |links|
                                    && links[i] == r.value
                                    && LooksLikeStatus(href(links[i]))
                                    && forall j :: 0 <= j < i ==> !LooksLikeStatus(href(links[j]))
  {
    if links == [] then None
    else if LooksLikeStatus(href(links[0])) then Some(links[0])
    else
      var r := GetStatusLink(links[1..], href);
      assert forall i :: 1 <= i < |links| ==> links[i] == links[1..][i - 1];
      r
  }

  /** First match distributes over concatenation: the links after the
      first permalink are never consulted. */
  lemma {:induction false} GetStatusLinkAppend<L>(a: seq<L>, b: seq<L>, href: L -> string)
    ensures GetStatusLink(a + b, href) ==
              if GetStatusLink(a, href).Some? then GetStatusLink(a, href) else GetStatusLink(b, href)
    decreases |a|
  {
    if a == [] {
      assert a + b == b;
    } else {
      assert (a + b)[0] == a[0];
      assert (a + b)[1..] == a[1..] + b;
      GetStatusLinkAppend(a[1..], b, href);
    }
  }
}

=== FILE: text.dfy ===
/** Python string operations the scraper relies on: the `in` operator,
    `str.find` of a single character, `str.split` on a single character
    and `str.strip` of a set of characters (also used for the whitespace
    that `int()` ignores around its literal). */
module Text {
  import opened Wrappers

  /** Python's `sub in s`: scan `s` from the left for a copy of `sub`. */
  predicate Contains(s: string, sub: string)
    decreases |s|
  {
    |sub| <= |s| && (s[..|sub|] == sub || Contains(s[1..], sub))
  }

  /** `sub` occurs in `s` starting at index `i`. */
  ghost predicate OccursAt(s: string, sub: string, i: int)
  {
    0 <= i && i + |sub| <= |s| && s[i..i + |sub|] == sub
  }

  /** The left-to-right scan agrees with the positional definition. */
  lemma {:induction false} ContainsIffOccurs(s: string, sub: string)
    ensures Contains(s, sub) <==> exists i :: OccursAt(s, sub, i)
    decreases |s|
  {
    if |sub| > |s| {
    } else if s[..|sub|] == sub {
      assert OccursAt(s, sub, 0);
    } else {
      ContainsIffOccurs(s[1..], sub);
      if Contains(s[1..], sub) {
        var i :| OccursAt(s[1..], sub, i);
        assert s[1..][i..i + |sub|] == s[i + 1..i + 1 + |sub|];
        assert OccursAt(s, sub, i + 1);
      }
      if i :| OccursAt(s, sub, i) {
        assert i != 0;
        assert s[1..][i - 1..i - 1 + |sub|] == s[i..i + |sub|];
        assert OccursAt(s[1..], sub, i - 1);
      }
    }
  }

  /** A string containing `a` contains everything `a` contains. */
  lemma ContainsTransitive(s: string, a: string, b: string)
    requires Contains(s, a) && Contains(a, b)
    ensures Contains(s, b)
  {
    ContainsIffOccurs(s, a);
    ContainsIffOccurs(a, b);
    var i :| OccursAt(s, a, i);
    var j :| OccursAt(a, b, j);
    forall k | 0 <= k < |b|
      ensures s[i + j..i + j + |b|][k] == b[k]
    {
      assert b[k] == a[j + k] == s[i..i + |a|][j + k];
    }
    assert OccursAt(s, b, i + j);
    ContainsIffOccurs(s, b);
  }

  /** A string lacking some character of `sub` cannot contain `sub`. */
  lemma ContainsOnlyIfChar(s: string, sub: string, k: nat)
    requires k < |sub| && sub[k] !in s
    ensures !Contains(s, sub)
  {
    forall i | 0 <= i && i + |sub| <= |s|
      ensures !OccursAt(s, sub, i)
    {
      assert s[i..i + |sub|][k] == s[i + k] != sub[k];
    }
    ContainsIffOccurs(s, sub);
  }

  /** Python's `s.find(c)` for one character, with -1 as `None`. */
  function IndexOf(s: string, c: char): (r: Option<nat>)
    ensures r.Some? ==> r.value < |s| && s[r.value] == c
    ensures r.Some? ==> forall k :: 0 <= k < r.value ==> s[k] != c
    ensures r.None? <==> c !in s
  {
    if |s| == 0 then None
    else if s[0] == c then Some(0)
    else match IndexOf(s[1..], c)
      case None => None
      case Some(i) => Some(i + 1)
  }

  /** `IndexOf` finds the first occurrence wherever it is. */
  lemma IndexOfFirst(s: string, c: char, i: nat)
    requires i < |s| && s[i] == c
    requires forall k :: 0 <= k < i ==> s[k] != c
    ensures IndexOf(s, c) == Some(i)
  {
  }

  /** Inverse of `Split`: the parts glued back with the separator. */
  function Join(parts: seq<string>, c: char): string
    requires |parts| > 0
  {
    if |parts| == 1 then parts[0] else parts[0] + [c] + Join(parts[1..], c)
  }

  /** Python's `s.split(c)` for one character. */
  function Split(s: string, c: char): (parts: seq<string>)
    ensures |parts| > 0
    decreases |s|
  {
    match IndexOf(s, c)
    case None => [s]
    case Some(i) => [s[..i]] + Split(s[i + 1..], c)
  }

  /** What the parts of a split are: none holds the separator, there are
      several exactly when `s` holds it, and they glue back to `s`. This
      determines the parts uniquely (see `SplitJoin`). */
  lemma {:induction false} SplitParts(s: string, c: char)
    ensures forall k :: 0 <= k < |Split(s, c)| ==> c !in Split(s, c)[k]
    ensures |Split(s, c)| > 1 <==> c in s
    ensures Join(Split(s, c), c) == s
    decreases |s|
  {
    match IndexOf(s, c)
    case None =>
    case Some(i) =>
      var head, rest := s[..i], s[i + 1..];
      SplitParts(rest, c);
      var parts, tail := Split(s, c), Split(rest, c);
      assert parts == [head] + tail;
      forall k | 0 <= k < |head|
        ensures head[k] != c
      {
        assert head[k] == s[k];
      }
      forall k | 0 <= k < |parts|
        ensures c !in parts[k]
      {
        if k > 0 {
          assert parts[k] == tail[k - 1];
        }
      }
      assert s == head + [c] + rest;
      assert Join(parts, c) == head + [c] + Join(tail, c);
  }

  /** Splitting a join of separator-free parts gives the parts back. */
  lemma {:induction false} SplitJoin(parts: seq<string>, c: char)
    requires |parts| > 0
    requires forall k :: 0 <= k < |parts| ==> c !in parts[k]
    ensures Split(Join(parts, c), c) == parts
    decreases |parts|
  {
    if |parts| == 1 {
      assert IndexOf(parts[0], c).None?;
    } else {
      var s := Join(parts, c);
      var tail := Join(parts[1..], c);
      assert s == parts[0] + [c] + tail;
      assert s[|parts[0]|] == c;
      assert s[..|parts[0]|] == parts[0];
      assert forall k :: 0 <= k < |parts[0]| ==> s[k] == parts[0][k];
      IndexOfFirst(s, c, |parts[0]|);
      assert s[|parts[0]| + 1..] == tail;
      SplitJoin(parts[1..], c);
    }
  }

  /** The first field is the text up to the first separator, or all of
      the text when there is none. */
  lemma SplitFirst(field: string, rest: string, c: char)
    requires c !in field
    requires rest == "" || rest[0] == c
    ensures Split(field + rest, c)[0] == field
  {
    var s := field + rest;
    if rest == "" {
      assert s == field;
    } else {
      assert forall k :: 0 <= k < |field| ==> s[k] == field[k];
      IndexOfFirst(s, c, |field|);
      assert s[..|field|] == field;
    }
  }

  lemma IndexOfAfter(a: string, c: char, t: string)
    requires c !in a
    ensures IndexOf(a + [c] + t, c) == Some(|a|)
  {
    var s := a + [c] + t;
    assert forall k :: 0 <= k < |a| ==> s[k] == a[k];
    IndexOfFirst(s, c, |a|);
  }

  /** A separator-free prefix followed by the separator is the first
      field. */
  lemma SplitAfter(a: string, c: char, t: string)
    requires c !in a
    ensures Split(a + [c] + t, c) == [a] + Split(t, c)
  {
    var s := a + [c] + t;
    IndexOfAfter(a, c, t);
    assert s[..|a|] == a;
    assert s[|a| + 1..] == t;
  }

  /** Splitting two texts glued with the separator gives the parts of the
      first followed by the parts of the second. */
  lemma {:induction false} SplitAppend(a: string, c: char, b: string)
    ensures Split(a + [c] + b, c) == Split(a, c) + Split(b, c)
  {
    var x, y := Split(a, c), Split(b, c);
    SplitParts(a, c);
    SplitParts(b, c);
    JoinAppend(x, y, c);
    SplitJoin(x + y, c);
  }

  /** Joining two lists of parts is joining their joins. */
  lemma {:induction false} JoinAppend(x: seq<string>, y: seq<string>, c: char)
    requires |x| > 0 && |y| > 0
    ensures Join(x + y, c) == Join(x, c) + [c] + Join(y, c)
    decreases |x|
  {
    if |x| == 1 {
      assert (x + y)[1..] == y;
    } else {
      assert (x + y)[1..] == x[1..] + y;
      JoinAppend(x[1..], y, c);
    }
  }

  /** The field after the first separator is the text up to the next
      separator or the end. */
  lemma SplitSecond(a: string, field: string, rest: string, c: char)
    requires c !in a && c !in field
    requires rest == "" || rest[0] == c
    ensures |Split(a + [c] + field + rest, c)| > 1
    ensures Split(a + [c] + field + rest, c)[1] == field
  {
    var t := field + rest;
    assert a + [c] + field + rest == a + [c] + t;
    SplitAfter(a, c, t);
    SplitFirst(field, rest, c);
  }

  /** The first index at or after `i` whose character is not in `chars`,
      or `|s|`: where the stripped text starts. */
  function FirstKept(s: string, chars: set<char>, i: nat): (a: nat)
    requires i <= |s|
    ensures i <= a <= |s|
    ensures forall k :: i <= k < a ==> s[k] in chars
    ensures a == |s| || s[a] !in chars
    decreases |s| - i
  {
    if i < |s| && s[i] in chars then FirstKept(s, chars, i + 1) else i
  }

  /** The end of the text before index `j` once the trailing characters in
      `chars` are dropped, going no lower than `lo`. */
  function LastKept(s: string, chars: set<char>, lo: nat, j: nat): (e: nat)
    requires lo <= j <= |s|
    ensures lo <= e <= j
    ensures forall k :: e <= k < j ==> s[k] in chars
    ensures e == lo || s[e - 1] !in chars
    decreases j
  {
    if lo < j && s[j - 1] in chars then LastKept(s, chars, lo, j - 1) else j
  }

  /** `r` is the slice of `s` starting at `a`, and everything of `s` around
      it belongs to `chars`. */
  ghost predicate SliceWithin(s: string, chars: set<char>, r: string, a: int)
  {
    && 0 <= a <= |s| - |r|
    && r == s[a..a + |r|]
    && (forall k :: 0 <= k < a ==> s[k] in chars)
    && (forall k :: a + |r| <= k < |s| ==> s[k] in chars)
  }

  /** Python's `s.strip(chars)`: the slice of `s` left after removing every
      leading and trailing character that belongs to `chars`. */
  function Strip(s: string, chars: set<char>): (r: string)
    ensures exists a :: SliceWithin(s, chars, r, a)
    ensures |r| == 0 || (r[0] !in chars && r[|r| - 1] !in chars)
  {
    var a := FirstKept(s, chars, 0);
    var e := LastKept(s, chars, a, |s|);
    assert SliceWithin(s, chars, s[a..e], a);
    s[a..e]
  }

  /** Stripping leaves a string alone whose ends are outside `chars`. */
  lemma StripUnchanged(s: string, chars: set<char>)
    requires |s| > 0 && s[0] !in chars && s[|s| - 1] !in chars
    ensures Strip(s, chars) == s
  {
    assert FirstKept(s, chars, 0) == 0;
    assert LastKept(s, chars, 0, |s|) == |s|;
    assert s[0..|s|] == s;
  }

  /** A character outside `chars` survives stripping. */
  lemma StripKeeps(s: string, chars: set<char>, k: nat)
    requires k < |s| && s[k] !in chars
    ensures s[k] in Strip(s, chars)
  {
    var r := Strip(s, chars);
    var a :| SliceWithin(s, chars, r, a);
    assert r[k - a] == s[k];
  }

  /** Stripping removes one leading character of `chars` in front of a
      string whose ends are outside `chars`. */
  lemma StripOneLeading(c: char, s: string, chars: set<char>)
    requires c in chars
    requires |s| > 0 && s[0] !in chars && s[|s| - 1] !in chars
    ensures Strip([c] + s, chars) == s
  {
    var t := [c] + s;
    assert FirstKept(t, chars, 1) == 1;
    assert FirstKept(t, chars, 0) == 1;
    assert LastKept(t, chars, 1, |t|) == |t|;
    assert t[1..|t|] == s;
  }

  /** A character of the ASCII decimal digits. */
  predicate IsDigit(ch: char)
  {
    '0' <= ch <= '9'
  }
}

=== FILE: url_query.dfy ===
/** The part of `urllib.parse` that the post-id extraction uses: the query
    component of `urlparse(url)` and `parse_qs(query)` with its defaults
    (`keep_blank_values=False`, `strict_parsing=False`, separator `&`). */
module UrlQuery {
  import opened Wrappers
  import opened Text

  /** The URLs on which this module is exact. `parse_qs` would decode `%XX`
      escapes and `+` in the query, and `urlsplit` deletes tab, CR and LF
      anywhere; none of that is modelled, so such URLs are excluded.
      `urlsplit` also rejects unbalanced or malformed `[...]` hosts and
      checks non-ASCII hosts. The host lies before the first `?` or `#`, so
      brackets and non-ASCII characters are excluded there only. */
  predicate SimpleUrl(url: string)
  {
    && NoControls(url)
    && PlainHost(BeforeQuery(url))
    && Unescaped(QueryOf(url))
  }

  /** No tab, CR or LF, the characters `urlsplit` deletes. */
  predicate NoControls(s: string)
  {
    forall k :: 0 <= k < |s| ==> s[k] !in {'\t', '\r', '\n'}
  }

  /** Text before the query that `urlsplit` accepts as it is: ASCII, and
      no `[` or `]` that could open an IPv6 host. */
  predicate PlainHost(head: string)
  {
    forall k :: 0 <= k < |head| ==> head[k] < '\U{80}' && head[k] !in {'[', ']'}
  }

  /** Query text `parse_qs` does not decode: no `%XX` escape, no `+`. */
  predicate Unescaped(q: string)
  {
    '%' !in q && '+' !in q
  }

  /** The text before the first `?` or `#`: scheme, host and path. */
  function BeforeQuery(url: string): (head: string)
    ensures head <= url
  {
    var beforeFragment := match IndexOf(url, '#')
      case None => url
      case Some(h) => url[..h];
    match IndexOf(beforeFragment, '?')
    case None => beforeFragment
    case Some(i) => beforeFragment[..i]
  }

  /** `urlparse(url).query`: urlsplit cuts the fragment at the first `#`
      and then the query at the first `?`. */
  function QueryOf(url: string): (q: string)
    ensures '#' !in q
  {
    var beforeFragment := match IndexOf(url, '#')
      case None => url
      case Some(h) => url[..h];
    match IndexOf(beforeFragment, '?')
    case None => ""
    case Some(i) => beforeFragment[i + 1..]
  }

  /** The query of a URL written as `base?query#fragment` (the fragment
      possibly absent) is `query`, provided `base` has no `?` or `#` of its
      own, `urlsplit` takes `base` as it is and deletes nothing from
      `query`. */
  lemma QueryOfBuilt(base: string, query: string, fragment: string)
    requires '?' !in base && '#' !in base && '#' !in query
    requires PlainHost(base) && NoControls(query)
    requires fragment == "" || fragment[0] == '#'
    ensures QueryOf(base + "?" + query + fragment) == query
  {
    var url := base + "?" + query + fragment;
    var before := base + "?" + query;
    if fragment == "" {
      assert url == before;
    } else {
      assert forall k :: 0 <= k < |before| ==> url[k] == before[k];
      IndexOfFirst(url, '#', |before|);
      assert url[..|before|] == before;
    }
    assert forall k :: 0 <= k < |base| ==> before[k] == base[k];
    IndexOfFirst(before, '?', |base|);
    assert before[|base| + 1..] == query;
  }

  /** One decoded `name=value` pair of a query string. */
  datatype Param = Param(name: string, value: string)

  /** What a pair produced by `parse_qsl` looks like: the name stops at the
      first `=`, neither part spans a `&`, and (blank values being dropped)
      the value is not empty. */
  predicate WellFormed(p: Param)
  {
    p.value != "" && '=' !in p.name && '&' !in p.name && '&' !in p.value
  }

  /** The pairs `parse_qsl` keeps from `&`-separated fields, in order: a
      field without `=` (the empty field included) or with an empty value
      is dropped, and the others split at their first `=`. */
  function KeepFields(fields: seq<string>): (params: seq<Param>)
    requires forall k :: 0 <= k < |fields| ==> '&' !in fields[k]
    ensures |params| <= |fields|
    ensures forall k :: 0 <= k < |params| ==> WellFormed(params[k])
  {
    if fields == [] then []
    else
      var field := fields[0];
      var rest := KeepFields(fields[1..]);
      match IndexOf(field, '=')
      case None => rest
      case Some(i) =>
        if i + 1 == |field| then rest
        else [Param(field[..i], field[i + 1..])] + rest
  }

  /** `parse_qsl(qs)`. */
  function ParseQsl(qs: string): (params: seq<Param>)
    ensures forall k :: 0 <= k < |params| ==> WellFormed(params[k])
  {
    if qs == "" then []
    else
      SplitParts(qs, '&');
      KeepFields(Split(qs, '&'))
  }

  /** `parse_qsl` handles the fields on either side of a `&` on their
      own and keeps their pairs in order. */
  lemma ParseQslAppend(q1: string, q2: string)
    ensures ParseQsl(q1 + "&" + q2) == ParseQsl(q1) + ParseQsl(q2)
  {
    SplitParts(q1, '&');
    SplitParts(q2, '&');
    SplitAppend(q1, '&', q2);
    KeepFieldsAppend(Split(q1, '&'), Split(q2, '&'));
    if q1 == "" {
      assert KeepFields(Split(q1, '&')) == [];
    }
    if q2 == "" {
      assert KeepFields(Split(q2, '&')) == [];
    }
  }

  /** A field without `=`, or whose first `=` ends it (a blank value), is
      dropped. */
  lemma ParseQslDropped(f: string)
    requires '&' !in f
    requires '=' !in f || (|f| > 0 && f[|f| - 1] == '=' && '=' !in f[..|f| - 1])
    ensures ParseQsl(f) == []
  {
    SplitParts(f, '&');
    assert Split(f, '&') == [f];
    if '=' in f {
      forall k | 0 <= k < |f| - 1
        ensures f[k] != '='
      {
        assert f[..|f| - 1][k] == f[k];
      }
      IndexOfFirst(f, '=', |f| - 1);
    }
  }

  /** A well-formed `name=value` field gives its pair. */
  lemma ParseQslPair(p: Param)
    requires WellFormed(p) && Unescaped(Field(p))
    ensures ParseQsl(Field(p)) == [p]
  {
    ParseEncode([p]);
  }

  /** A trailing query field that `parse_qsl` drops (such as `theater` or
      `set=`) changes no parameter's value. */
  lemma QueryValueSkipsDropped(base: string, q: string, f: string, fragment: string, name: string)
    requires '?' !in base && '#' !in base && '#' !in q && '#' !in f && '&' !in f
    requires PlainHost(base) && NoControls(q) && NoControls(f)
    requires '=' !in f || (|f| > 0 && f[|f| - 1] == '=' && '=' !in f[..|f| - 1])
    requires fragment == "" || fragment[0] == '#'
    ensures QueryValue(base + "?" + q + "&" + f + fragment, name)
         == QueryValue(base + "?" + q + fragment, name)
  {
    assert base + "?" + q + "&" + f + fragment == base + "?" + (q + "&" + f) + fragment;
    QueryOfBuilt(base, q + "&" + f, fragment);
    QueryOfBuilt(base, q, fragment);
    ParseQslAppend(q, f);
    ParseQslDropped(f);
    assert ParseQsl(q) + [] == ParseQsl(q);
  }

  lemma {:induction false} KeepFieldsAppend(a: seq<string>, b: seq<string>)
    requires forall k :: 0 <= k < |a| ==> '&' !in a[k]
    requires forall k :: 0 <= k < |b| ==> '&' !in b[k]
    ensures KeepFields(a + b) == KeepFields(a) + KeepFields(b)
    decreases |a|
  {
    if a == [] {
      assert a + b == b;
    } else {
      assert (a + b)[1..] == a[1..] + b;
      KeepFieldsAppend(a[1..], b);
    }
  }

  /** The value of the first pair called `name`; `parse_qs` gathers the
      values of one name into a list in query order, so this is
      `parse_qs(qs).get(name, [None])[0]`. */
  function FirstValue(params: seq<Param>, name: string): (r: Option<string>)
    ensures r.None? <==> forall k :: 0 <= k < |params| ==> params[k].name != name
    ensures r.Some? ==> exists k :: 0 <= k < |params| && params[k] == Param(name, r.value)
                                   && forall j :: 0 <= j < k ==> params[j].name != name
  {
    if params == [] then None
    else if params[0].name == name then Some(params[0].value)
    else
      FirstValue(params[1..], name)
  }

  /** `parse_qs(urlparse(url).query).get(name, [None])[0]`. */
  function QueryValue(url: string, name: string): (r: Option<string>)
    ensures r.Some? ==> r.value != ""
  {
    FirstValue(ParseQsl(QueryOf(url)), name)
  }

  /** The `name=value` field of one pair. */
  function Field(p: Param): string
  {
    p.name + "=" + p.value
  }

  /** The query string `n1=v1&n2=v2&...` of a list of pairs. */
  function Encode(params: seq<Param>): string
  {
    if params == [] then "" else Join(Fields(params), '&')
  }

  function Fields(params: seq<Param>): (fields: seq<string>)
    ensures |fields| == |params|
    ensures forall k :: 0 <= k < |params| ==> fields[k] == Field(params[k])
  {
    if params == [] then [] else [Field(params[0])] + Fields(params[1..])
  }

  /** `parse_qsl` reads back every list of well-formed pairs that holds
      nothing it would decode. */
  lemma ParseEncode(params: seq<Param>)
    requires forall k :: 0 <= k < |params| ==> WellFormed(params[k])
    requires Unescaped(Encode(params))
    ensures ParseQsl(Encode(params)) == params
  {
    if params != [] {
      var fields := Fields(params);
      assert Join(fields, '&') != "" by {
        JoinNotEmpty(fields, '&');
      }
      forall k | 0 <= k < |fields|
        ensures '&' !in fields[k]
      {
        assert WellFormed(params[k]);
      }
      SplitJoin(fields, '&');
      KeepWellFormedFields(params);
    }
  }

  lemma JoinNotEmpty(parts: seq<string>, c: char)
    requires |parts| > 0 && parts[0] != ""
    ensures Join(parts, c) != ""
  {
    if |parts| > 1 {
      assert Join(parts, c)[|parts[0]|] == c;
    }
  }

  lemma {:induction false} KeepWellFormedFields(params: seq<Param>)
    requires forall k :: 0 <= k < |params| ==> WellFormed(params[k])
    ensures forall k :: 0 <= k < |params| ==> '&' !in Fields(params)[k]
    ensures KeepFields(Fields(params)) == params
  {
    if params != [] {
      var p := params[0];
      FieldOfWellFormed(p);
      assert Fields(params)[1..] == Fields(params[1..]);
      KeepWellFormedFields(params[1..]);
      assert params == [p] + params[1..];
    }
  }

  /** The field of a well-formed pair splits back at its first `=`. */
  lemma FieldOfWellFormed(p: Param)
    requires WellFormed(p)
    ensures '&' !in Field(p)
    ensures IndexOf(Field(p), '=') == Some(|p.name|)
    ensures |p.name| + 1 < |Field(p)|
    ensures Field(p)[..|p.name|] == p.name && Field(p)[|p.name| + 1..] == p.value
  {
    var f := Field(p);
    assert forall k :: 0 <= k < |p.name| ==> f[k] == p.name[k];
    IndexOfFirst(f, '=', |p.name|);
    assert f[..|p.name|] == p.name && f[|p.name| + 1..] == p.value;
  }
}

=== FILE: wrappers.dfy ===
/** Failure-compatible wrappers shared by the whole model. */
module Wrappers {

  /** A value that may be absent; `None` stands for Python's `None`. */
  datatype Option<+T> = None | Some(value: T)

  /** Either a value or the exception that the modelled code raises. */
  datatype Result<+T, +E> = Success(value: T) | Failure(error: E)
}
